=== FILE: README.md ===
# na.DDNS in Dafny

na.DDNS is a dynamic-DNS updater for Cloudflare. At start-up it reads its
settings from the environment, validates them and derives the zone from the
record's hostname; then, on every tick of a cron schedule, it asks an
IP-echo service for the machine's public address, lists the provider's
records for the hostname and either creates the record, updates its
content, or leaves it alone.

This project models the pure logic of `main.go`:

- `Strings` — Go's `strings.Split`, `strings.Join` and `strings.TrimRight`
  for a one-character separator or cutset, with their round trips.
- `Strconv` — `strconv.Atoi` and `strconv.ParseBool` as the Go library
  documents them (optional sign, ASCII digits, 64-bit range; the twelve
  boolean spellings), each with its inverse.
- `Zone` — `parseZoneName`: exactly three dot-separated labels, the zone
  being the last two.
- `Config` — the start-up checks of `main` on the five environment variables,
  with their defaults, as a `Result` instead of `log.Fatal`.
- `PublicIp` — the endpoint chosen from the record type and the trimming of
  the response body.
- `Reconcile` — the create/update/no-op decision, a model of the provider's
  record list (list by name, create, update by id), one cycle with its
  logged outcome, and convergence: after one successful write the next cycle
  writes nothing.

Four behaviours of the code worth knowing:

- Hostnames with empty labels are accepted (`a..com` gives the zone `.com`);
  only the number of pieces is checked.
- A failed update ends the process (`log.Fatalf`) while a failed create is
  only logged; `Outcome.Fatal` records exactly that.
- `queryPublicIP` never returns an error. A read error from `io.ReadAll` is
  only logged and whatever was read is used. A request error from `http.Get`
  is logged too, but the response is then nil, so reading or closing its body
  (main.go:226, 232) panics and the tick produces no address. The model
  therefore takes the address as an input to the cycle.
- The provider's records are listed by name only (main.go:105-109), so
  records of every type under the hostname are listed, and the first of them
  is the one checked and updated, whatever its type. A lone `TXT` record under
  the hostname is overwritten with the address, after which every tick logs
  "Record Valid" although no record of the configured type exists
  (`Reconcile.OtherTypeOverwritten`). With an `A` record listed first and
  `AAAA` configured, the update targets the `A` record with an IPv6 address
  (`Reconcile.UpdateTargetsFirstOfAnyType`); a provider that refuses it makes
  the first such tick end the process at main.go:163. `Reconcile.Converges` therefore promises
  that the first listed record holds the address, not that a record of the
  configured type does.

The model's errors carry more than the program's log lines do:
`IntervalOutOfRange` carries the parsed value and `ProxiedNotBoolean` the
entered text, while the messages at main.go:49 and main.go:61 name neither.
`IntervalNotParsed` stands for every `Atoi` failure, both a syntax error and
a digit string beyond 64 bits (a range error in Go).

## Model

| member | source | states |
|---|---|---|
| Strings.Split | main.go:246 | splitting yields at least one piece and no piece contains the separator |
| Strings.Join | main.go:251-254 | the parts with the separator between neighbours, as `strings.Join` builds them |
| Strings.SplitLength | main.go:246-247 | the number of pieces is the number of separators plus one |
| Strings.JoinSplit | main.go:246-254 | joining the pieces with the separator gives back the input |
| Strings.SplitJoin | main.go:246-254 | splitting a join of separator-free parts gives back the parts |
| Strings.TrimRight | main.go:237 | the result is a prefix of the input, does not end in a cutset character, and everything removed is in the cutset |
| Strings.TrimRightUnique | main.go:237 | any split into a kept part not ending in the cutset and a removed part of cutset characters is the one trimming makes |
| Strings.TrimRightIdempotent | main.go:237 | trimming twice equals trimming once |
| Strings.TrimRightScan | main.go:237 | the backward scan that Go performs computes the trimmed string |
| Strconv.Atoi | main.go:44-47 | parsing succeeds iff the text is one or more ASCII digits, optionally after `+` or `-`, whose signed value fits in 64 bits; the value is the digits' value with the sign applied |
| Strconv.DigitsValueDecimal | main.go:44 | reading back the decimal spelling of a number gives the number |
| Strconv.AtoiDecimal | main.go:44 | `Atoi` inverts the decimal spelling of every non-negative 64-bit value |
| Strconv.AtoiNegativeDecimal | main.go:44 | a minus sign and a decimal spelling read back as the negative number, down to the smallest 64-bit value |
| Strconv.ParseBool | main.go:58-62 | exactly the six spellings of true give true and the six of false give false; all else is an error |
| Strconv.ParseFormatBool | main.go:58 | `ParseBool` inverts `FormatBool` |
| Zone.ParseZoneName | main.go:245-257 | a rejection names the input; an accepted zone contains a dot |
| Zone.ZoneOrEmpty | main.go:245-249 | the zone string the caller receives, `""` on the error path |
| Zone.AcceptedIffTwoDots | main.go:246-249 | the hostname is accepted iff it has exactly two dots; on rejection the caller's zone is empty |
| Zone.AcceptedReconstructs | main.go:251-256 | on success there are three pieces, the zone is piece 1, a dot and piece 2, and piece 0, a dot and the zone spell the hostname |
| Zone.ThreeLabelsAccepted | main.go:246-256 | any three dot-free labels, empty ones included, are accepted with the last two as zone |
| Zone.AcceptsRecordDomainTld | main.go:245-257 | `host.example.com` gives the zone `example.com` |
| Zone.AcceptsEmptyLabel | main.go:245-257 | `a..com` is accepted with the zone `.com` |
| Zone.RejectsEmpty | main.go:246-249 | the empty string is rejected |
| Zone.RejectsBareDomain | main.go:246-249 | `example.com` is rejected |
| Zone.RejectsFourLabels | main.go:246-249 | `a.b.example.com` is rejected |
| Config.ValidateRecordType | main.go:30-38 | accepted iff empty, `A` or `AAAA`; empty defaults to `A`; an accepted value is kept; the error names the input |
| Config.RecordTypeRoundTrip | main.go:30-38 | each supported type, written out, validates to itself |
| Config.ValidatePollingInterval | main.go:40-51 | accepted iff empty or parsing to an integer in [1, 59]; empty defaults to `3`; otherwise the supplied string is kept unchanged; parse and range errors are told apart |
| Config.PollingIntervalDecimal | main.go:40-51 | the decimal spelling of a count is accepted iff the count is in [1, 59] |
| Config.PollingIntervalRejectsBounds | main.go:48-50 | `0` and `60` are out of range |
| Config.PollingIntervalRejectsWord | main.go:44-47 | `abc` is rejected as not parsed |
| Config.PollingIntervalAcceptsBounds | main.go:40-51 | `1`, `59` and `+05` are accepted and kept as written |
| Config.ValidateProxied | main.go:53-63 | empty defaults to false; otherwise accepted iff `ParseBool` accepts it, with its value; the model's error carries the input, which the program's message does not |
| Config.ProxiedRoundTrip | main.go:53-63 | each flag, written out, validates to itself |
| Config.LoadSettings | main.go:19-75 | start-up succeeds iff every check passes; for each of the six checks, when all earlier ones pass and it fails, its error is the result; the settings carry the validated values |
| Config.LoadSettingsRoundTrip | main.go:19-75 | every settings value with a key, a valid hostname and zone and a valid interval loads back unchanged from the environment that spells it out |
| Config.ScheduleSpec | main.go:82 | the cron spec `@every <interval>m` the job is scheduled with |
| Config.ScheduleSpecInjective | main.go:82 | distinct intervals give distinct cron specs, since the interval sits verbatim between `@every ` and `m` |
| Config.ScheduleUsesRawInterval | main.go:82 | the cron spec holds the interval exactly as supplied, or `3` when unset |
| Config.DefaultsApply | main.go:30-75 | with only key and hostname set, the defaults `A`, `3` and not proxied apply |
| PublicIp.Protocol | main.go:210-216 | `A` maps to `ipv4`, `AAAA` to `ipv6`, anything else to the empty label, each iff |
| PublicIp.EndpointUrl | main.go:217 | the echo endpoint `https://<protocol>.icanhazip.com` queried for the record type |
| PublicIp.EndpointOfA | main.go:211-217 | `A` reaches `https://ipv4.icanhazip.com` |
| PublicIp.EndpointOfAAAA | main.go:214-217 | `AAAA` reaches `https://ipv6.icanhazip.com` |
| PublicIp.EndpointsOfSupportedTypes | main.go:211-217 | supported types reach `https://ipv4.icanhazip.com` or `https://ipv6.icanhazip.com`, and different types reach different endpoints |
| PublicIp.CleanBody | main.go:237 | the body with every trailing newline removed |
| PublicIp.CleanBodyShape | main.go:237 | the address is a prefix of the body, does not end in a newline, and only newlines were removed |
| PublicIp.CleanBodyStripsAllNewlines | main.go:237 | an address followed by any number of newlines cleans up to the address |
| PublicIp.CleanBodyIdempotent | main.go:237 | cleaning twice equals cleaning once |
| Reconcile.Comment | main.go:121 | the record comment `na.DDNS [<timestamp>]`, used for creates (main.go:121) and updates (main.go:148-152) |
| Reconcile.Decide | main.go:119-179 | create iff nothing is listed, with the configured type, hostname, address and flag; update iff the first record's content differs, targeting its id with the address; no-op iff it matches |
| Reconcile.OnlyFirstRecordConsulted | main.go:146 | lists that agree on their first record get the same decision |
| Reconcile.ListByName | main.go:105-109 | the listed records all carry the name and come from the zone, and every zone record with the name is listed |
| Reconcile.FirstListedIsFirstNamed | main.go:105-109 | the first listed record is the zone's first record carrying the name |
| Reconcile.UpdateById | main.go:154-161 | records with the id take the new name, content and comment; all others are unchanged |
| Reconcile.Apply | main.go:119-161 | a no-op changes nothing, a create appends exactly one record, an update adds none, gives records with the targeted id the new name, content and comment, and leaves the others alone |
| Reconcile.UpdateFirstListed | main.go:146-161 | updating the first listed record's id puts a record with the new content first in the list |
| Reconcile.Converges | main.go:119-179 | after the provider applies the decided action, deciding again with the same address gives no-op |
| Reconcile.Cycle | main.go:119-179 | a tick ends valid iff the first listed record already holds the address; created iff nothing was listed and the write succeeded, create-failed iff nothing was listed and it failed; fatal iff the update of a stale record failed; failed writes leave the zone unchanged and successful ones leave the zone the provider produces |
| Reconcile.CycleReachesFixedPoint | main.go:119-179 | after a tick that did not fail, the next tick with the same address ends valid and changes nothing |
| Reconcile.OtherTypeOverwritten | main.go:105-179 | a lone stale record of another type under the hostname is rewritten with the address, and the next tick is valid although no record of the configured type exists |
| Reconcile.UpdateTargetsFirstOfAnyType | main.go:146-161 | a stale first listed record is the update's target whatever its type and whatever follows it |
| Reconcile.CreatePath | main.go:119-131 | with no record listed, a successful tick appends exactly the configured record |
| Reconcile.UpdatePath | main.go:146-161 | with a stale first record, a successful tick rewrites only records with its id and adds none |

## Left out

- The HTTP GET to the echo service, reading and closing the body, the
  logged read error and the nil-response panic after a failed request
  (main.go:218-235, 239): network I/O. The cycle takes the address as a
  parameter.
- The Cloudflare client (`NewWithAPIToken`, `ZoneIDByName`, `ListDNSRecords`,
  `CreateDNSRecord`, `UpdateDNSRecord`, main.go:89-161): a foreign library.
  Its records, listing and writes are modelled as data; its failures to
  authenticate, find the zone or list (fatal, main.go:89-112) are not.
- `Reconcile.Converges` and `Reconcile.CycleReachesFixedPoint` rest on three
  assumptions about the provider that its client does not promise: the list
  filter matches the name as an exact string; the list order is the zone's
  order and an update does not move a record; and content is stored exactly
  as sent. With several records under one name, a provider that re-sorts on
  update could need more than one cycle to converge. Convergence is about
  the first listed record, which need not have the configured type (see the
  list-by-name behaviour above).
- Go strings are byte strings and Go's `int` is as wide as the machine word;
  the model uses character sequences and fixes 64 bits. No result here
  differs, since the separators and cutset are ASCII and the interval must
  lie in [1, 59].
- The cron job, `cronjob.Start`, the `AddFunc` error message and
  `runtime.Goexit` (main.go:77-192): scheduling runtime. Only the cron spec
  string is modelled.
- The timestamps `time.Now().Format(...)` (main.go:120, 147): wall clock. They
  enter as the opaque `Clock` strings.
- `log` output and process exit: errors are returned values, and the cycle's
  log line is its `Outcome`.
- `booleanPointer` and `stringPointer` (main.go:198-207): pointer helpers with
  no logic.
- `Proxiable: true` in the create request is carried in the `Create` action
  but the provider model does not store it.
- The Go standard library (`strings`, `strconv`) is not part of this model's
  source: `Split`, `Join`, `TrimRight`, `Atoi` and `ParseBool` follow the
  package documentation, for the one-character separators and cutsets the
  updater passes.

=== FILE: config.dfy ===
/** Start-up configuration: the environment variables `main` reads, their
    defaults and validation. A `log.Fatal` exit becomes a `Failure`. */
module Config {
  import opened Wrappers
  import opened Strconv
  import opened Zone

  /** The raw values of the five environment variables; an unset variable
      reads as the empty string, as with `os.Getenv`. */
  datatype Env = Env(
    apiKey: string,          // CLOUDFLARE_API_KEY
    dnsRecord: string,       // CLOUDFLARE_DNS_RECORD
    recordType: string,      // CLOUDFLARE_DNS_RECORD_TYPE
    pollingInterval: string, // POLLING_INTERVAL
    proxied: string)         // PROXIED

  /** The two DNS record types the updater supports. */
  datatype RecordType = A | AAAA {
    /** The record type as the provider and the environment spell it. */
    function Text(): string {
      match this
      case A => "A"
      case AAAA => "AAAA"
    }
  }

  /** Why start-up stopped, one case per fatal exit, in source order. */
  datatype ConfigError =
    | MissingApiKey
    | MissingDnsRecord
    | UnsupportedRecordType(entered: string)
    | IntervalNotParsed(entered: string)     // not an integer, or beyond 64 bits
    | IntervalOutOfRange(value: int)
    | ProxiedNotBoolean(entered: string)
    | BadHostname(reason: ZoneError)

  /** The validated settings the scheduled reconcile runs with. */
  datatype Settings = Settings(
    apiKey: string,
    hostname: string,
    zone: string,
    recordType: RecordType,
    pollingInterval: string,
    proxied: bool)

  const DefaultPollingInterval: string := "3"
  const MinPollingInterval: int := 1
  const MaxPollingInterval: int := 59

  /** CLOUDFLARE_DNS_RECORD_TYPE: empty defaults to `A`; otherwise it must
      be `A` or `AAAA`. */
  function ValidateRecordType(raw: string): (r: Result<RecordType, ConfigError>)
    ensures r.Success? <==> raw in {"", "A", "AAAA"}
    ensures raw == "" ==> r == Success(A)
    ensures r.Success? && raw != "" ==> r.value.Text() == raw
    ensures r.Failure? ==> r.error == UnsupportedRecordType(raw)
  {
    if raw == "" then Success(A)
    else if raw == "A" then Success(A)
    else if raw == "AAAA" then Success(AAAA)
    else Failure(UnsupportedRecordType(raw))
  }

  /** Every supported type survives being written out and read back. */
  lemma RecordTypeRoundTrip(t: RecordType)
    ensures ValidateRecordType(t.Text()) == Success(t)
  {
  }

  /** POLLING_INTERVAL: empty defaults to `"3"`; otherwise it must parse as
      an integer in [1, 59]. The string itself, not the number, is kept. */
  function ValidatePollingInterval(raw: string): (r: Result<string, ConfigError>)
    ensures r.Success? <==>
              raw == ""
              || (Atoi(raw).Some? && MinPollingInterval <= Atoi(raw).value <= MaxPollingInterval)
    ensures r.Success? ==> r.value == (if raw == "" then DefaultPollingInterval else raw)
    ensures r.Failure? && Atoi(raw).None? ==> r.error == IntervalNotParsed(raw)
    ensures r.Failure? && Atoi(raw).Some? ==> r.error == IntervalOutOfRange(Atoi(raw).value)
  {
    if raw == "" then Success(DefaultPollingInterval)
    else
      match Atoi(raw)
      case None => Failure(IntervalNotParsed(raw))
      case Some(n) =>
        if n < MinPollingInterval || n > MaxPollingInterval then Failure(IntervalOutOfRange(n))
        else Success(raw)
  }

  /** The decimal spelling of a minute count is accepted exactly when the
      count lies in [1, 59], and is kept as written. */
  lemma PollingIntervalDecimal(n: nat)
    ensures ValidatePollingInterval(Decimal(n)).Success? <==> 1 <= n <= 59
    ensures 1 <= n <= 59 ==> ValidatePollingInterval(Decimal(n)) == Success(Decimal(n))
  {
    if n <= MaxInt64 {
      AtoiDecimal(n);
    } else {
      DigitsValueDecimal(n);
    }
  }

  /** The boundary values 0 and 60 are out of range. */
  lemma PollingIntervalRejectsBounds()
    ensures ValidatePollingInterval("0") == Failure(IntervalOutOfRange(0))
    ensures ValidatePollingInterval("60") == Failure(IntervalOutOfRange(60))
  {
    assert Decimal(0) == "0";
    PollingIntervalDecimal(0);
    assert Decimal(60) == "60";
    PollingIntervalDecimal(60);
  }

  /** A word is no integer. */
  lemma PollingIntervalRejectsWord()
    ensures ValidatePollingInterval("abc") == Failure(IntervalNotParsed("abc"))
  {
  }

  /** 1 and 59 are accepted, and so is a value with a sign and a leading
      zero that parses into range; the string is kept as written. */
  lemma PollingIntervalAcceptsBounds()
    ensures ValidatePollingInterval("1") == Success("1")
    ensures ValidatePollingInterval("59") == Success("59")
    ensures ValidatePollingInterval("+05") == Success("+05")
  {
    assert Decimal(1) == "1";
    PollingIntervalDecimal(1);
    assert Decimal(59) == "59";
    PollingIntervalDecimal(59);
    assert "+05"[1..] == "05";
    assert DigitsValue("05") == 5 by {
      assert "05"[..1] == "0";
      assert "0"[..0] == "";
    }
  }

  /** PROXIED: empty defaults to `false`; otherwise it must be one of the
      spellings `strconv.ParseBool` accepts. */
  function ValidateProxied(raw: string): (r: Result<bool, ConfigError>)
    ensures raw == "" ==> r == Success(false)
    ensures raw != "" ==> (r.Success? <==> ParseBool(raw).Some?)
    ensures raw != "" && r.Success? ==> r.value == ParseBool(raw).value
    ensures r.Failure? ==> r.error == ProxiedNotBoolean(raw)
  {
    if raw == "" then Success(false)
    else
      match ParseBool(raw)
      case None => Failure(ProxiedNotBoolean(raw))
      case Some(b) => Success(b)
  }

  /** Every flag survives being written out and read back. */
  lemma ProxiedRoundTrip(b: bool)
    ensures ValidateProxied(FormatBool(b)) == Success(b)
  {
    ParseFormatBool(b);
  }

  /** The start-up sequence of `main`: each check in source order, the
      first failing one deciding the error. */
  function LoadSettings(env: Env): (r: Result<Settings, ConfigError>)
    ensures r.Success? <==>
              && env.apiKey != ""
              && env.dnsRecord != ""
              && ValidateRecordType(env.recordType).Success?
              && ValidatePollingInterval(env.pollingInterval).Success?
              && ValidateProxied(env.proxied).Success?
              && ParseZoneName(env.dnsRecord).Success?
    ensures env.apiKey == "" ==> r == Failure(MissingApiKey)
    ensures env.apiKey != "" && env.dnsRecord == "" ==> r == Failure(MissingDnsRecord)
    ensures env.apiKey != "" && env.dnsRecord != "" && ValidateRecordType(env.recordType).Failure?
            ==> r == Failure(UnsupportedRecordType(env.recordType))
    ensures && env.apiKey != "" && env.dnsRecord != ""
            && ValidateRecordType(env.recordType).Success?
            && ValidatePollingInterval(env.pollingInterval).Failure?
            ==> r == Failure(ValidatePollingInterval(env.pollingInterval).error)
    ensures && env.apiKey != "" && env.dnsRecord != ""
            && ValidateRecordType(env.recordType).Success?
            && ValidatePollingInterval(env.pollingInterval).Success?
            && ValidateProxied(env.proxied).Failure?
            ==> r == Failure(ProxiedNotBoolean(env.proxied))
    ensures && env.apiKey != "" && env.dnsRecord != ""
            && ValidateRecordType(env.recordType).Success?
            && ValidatePollingInterval(env.pollingInterval).Success?
            && ValidateProxied(env.proxied).Success?
            && ParseZoneName(env.dnsRecord).Failure?
            ==> r == Failure(BadHostname(MalformedHostname(env.dnsRecord)))
    ensures r.Success? ==>
              && r.value.apiKey == env.apiKey
              && r.value.hostname == env.dnsRecord
              && r.value.zone == ParseZoneName(env.dnsRecord).value
              && r.value.recordType == ValidateRecordType(env.recordType).value
              && r.value.pollingInterval == ValidatePollingInterval(env.pollingInterval).value
              && r.value.proxied == ValidateProxied(env.proxied).value
  {
    if env.apiKey == "" then Failure(MissingApiKey)
    else if env.dnsRecord == "" then Failure(MissingDnsRecord)
    else
      var recordType :- ValidateRecordType(env.recordType);
      var interval :- ValidatePollingInterval(env.pollingInterval);
      var proxied :- ValidateProxied(env.proxied);
      match ParseZoneName(env.dnsRecord)
      case Failure(e) => Failure(BadHostname(e))
      case Success(zone) =>
        Success(Settings(env.apiKey, env.dnsRecord, zone, recordType, interval, proxied))
  }

  /** The environment that spells out a settings value: its key and
      hostname, the type's name, the interval as written and the flag. */
  function EnvOf(settings: Settings): Env
  {
    Env(settings.apiKey, settings.hostname, settings.recordType.Text(),
        settings.pollingInterval, FormatBool(settings.proxied))
  }

  /** Every settings value that start-up could have produced loads back
      from its own environment unchanged. */
  lemma LoadSettingsRoundTrip(settings: Settings)
    requires settings.apiKey != ""
    requires ParseZoneName(settings.hostname) == Success(settings.zone)
    requires ValidatePollingInterval(settings.pollingInterval) == Success(settings.pollingInterval)
    ensures LoadSettings(EnvOf(settings)) == Success(settings)
  {
    RecordTypeRoundTrip(settings.recordType);
    ProxiedRoundTrip(settings.proxied);
    assert settings.hostname != "" by {
      if settings.hostname == "" {
        RejectsEmpty();
      }
    }
  }

  /** The cron spec the reconcile is scheduled with: `@every <interval>m`. */
  function ScheduleSpec(pollingInterval: string): string
  {
    "@every " + pollingInterval + "m"
  }

  /** Distinct intervals give distinct cron specs: the interval is the text
      between the `@every ` prefix and the final `m`. */
  lemma ScheduleSpecInjective(interval: string, other: string)
    ensures ScheduleSpec(interval) == ScheduleSpec(other) <==> interval == other
  {
    var spec, spec' := ScheduleSpec(interval), ScheduleSpec(other);
    assert spec[7..|spec| - 1] == interval;
    assert spec'[7..|spec'| - 1] == other;
  }

  /** The configured interval reaches the scheduler unchanged: exactly the
      string the operator supplied, or `3` minutes when unset. */
  lemma ScheduleUsesRawInterval(env: Env)
    requires LoadSettings(env).Success?
    ensures env.pollingInterval != "" ==>
              ScheduleSpec(LoadSettings(env).value.pollingInterval) == "@every " + env.pollingInterval + "m"
    ensures env.pollingInterval == "" ==>
              ScheduleSpec(LoadSettings(env).value.pollingInterval) == "@every 3m"
  {
  }

  /** A well-formed environment with nothing optional set loads with the
      defaults `A`, `3` minutes and not proxied. */
  lemma DefaultsApply(apiKey: string, host: string, domain: string, tld: string)
    requires apiKey != ""
    requires '.' !in host && '.' !in domain && '.' !in tld
    ensures LoadSettings(Env(apiKey, host + "." + domain + "." + tld, "", "", "")) ==
              Success(Settings(apiKey, host + "." + domain + "." + tld, domain + "." + tld, A, "3", false))
  {
    ThreeLabelsAccepted(host, domain, tld);
  }
}

=== FILE: publicip.dfy ===
/** `queryPublicIP`, without its HTTP request: choosing the echo endpoint
    from the record type and cleaning up the response body. */
module PublicIp {
  import opened Strings
  import opened Config

  /** The address family label: `ipv4` for `A`, `ipv6` for `AAAA`, and the
      empty string for any other type (the variable's zero value). */
  function Protocol(recordType: string): (p: string)
    ensures recordType == "A" <==> p == "ipv4"
    ensures recordType == "AAAA" <==> p == "ipv6"
    ensures recordType != "A" && recordType != "AAAA" <==> p == ""
  {
    if recordType == "A" then "ipv4"
    else if recordType == "AAAA" then "ipv6"
    else ""
  }

  const EchoHost: string := ".icanhazip.com"

  /** The echo endpoint queried for the record type. */
  function EndpointUrl(recordType: string): string
  {
    "https://" + Protocol(recordType) + EchoHost
  }

  /** `A` reaches the IPv4 echo endpoint. */
  lemma EndpointOfA()
    ensures EndpointUrl("A") == "https://ipv4.icanhazip.com"
  {
    assert Protocol("A") == "ipv4";
  }

  /** `AAAA` reaches the IPv6 echo endpoint. */
  lemma EndpointOfAAAA()
    ensures EndpointUrl("AAAA") == "https://ipv6.icanhazip.com"
  {
    assert Protocol("AAAA") == "ipv6";
  }

  /** Both supported record types reach a real endpoint, and different types
      reach different endpoints. */
  lemma EndpointsOfSupportedTypes(t: RecordType, u: RecordType)
    ensures EndpointUrl(t.Text()) ==
              (if t == A then "https://ipv4.icanhazip.com" else "https://ipv6.icanhazip.com")
    ensures EndpointUrl(t.Text()) == EndpointUrl(u.Text()) <==> t == u
  {
    EndpointOfA();
    EndpointOfAAAA();
    var v4, v6 := EndpointUrl("A"), EndpointUrl("AAAA");
    assert v4 != v6 by {
      assert v4[11] == '4' && v6[11] == '6';
    }
  }

  /** The public address: the response body with every trailing newline
      removed (`TrimRight` with the cutset "\n"). */
  function CleanBody(body: string): string
  {
    TrimRight(body, "\n")
  }

  /** The address is a prefix of the body, does not end in a newline, and
      only newlines were cut. */
  lemma CleanBodyShape(body: string)
    ensures CleanBody(body) <= body
    ensures |CleanBody(body)| > 0 ==> CleanBody(body)[|CleanBody(body)| - 1] != '\n'
    ensures forall i :: |CleanBody(body)| <= i < |body| ==> body[i] == '\n'
  {
  }

  /** An address followed by any number of newlines cleans up to that
      address: every trailing newline goes, not just one. */
  lemma CleanBodyStripsAllNewlines(ip: string, newlines: nat)
    requires |ip| > 0 ==> ip[|ip| - 1] != '\n'
    ensures CleanBody(ip + seq(newlines, _ => '\n')) == ip
  {
    TrimRightUnique(ip, seq(newlines, _ => '\n'), "\n");
  }

  /** Cleaning an already clean address changes nothing. */
  lemma CleanBodyIdempotent(body: string)
    ensures CleanBody(CleanBody(body)) == CleanBody(body)
  {
    TrimRightIdempotent(body, "\n");
  }
}

=== FILE: reconcile.dfy ===
/** The body of the scheduled job: given the records the provider lists
    for the hostname and the current public address, decide whether to
    create the record, update it, or leave it alone; and a model of the
    provider's record list to state that one cycle converges. */
module Reconcile {
  import opened Config

  /** A DNS record as the provider stores it. */
  datatype Record = Record(
    id: string,
    recordType: string,
    name: string,
    content: string,
    comment: string,
    proxied: bool)

  /** `time.Now()` rendered in the two layouts the job uses: `DateTime`
      for a created record's comment, `Stamp` for an updated one's. */
  datatype Clock = Clock(dateTime: string, stamp: string)

  /** The one provider write a cycle performs, if any. */
  datatype Action =
    | Create(recordType: string, name: string, content: string, comment: string,
             proxiable: bool, proxied: bool)
    | Update(id: string, name: string, content: string, comment: string)
    | NoOp

  /** How one cycle ended, as its log line reports it. */
  datatype Outcome = Created | CreateFailed | Updated | UpdateFailed | Valid {
    /** A failed update ends the process (`log.Fatalf`); a failed create is
        only logged and retried on the next tick. */
    predicate Fatal() {
      UpdateFailed?
    }
  }

  /** The record comment: the product marker and a timestamp. */
  function Comment(timestamp: string): string
  {
    "na.DDNS [" + timestamp + "]"
  }

  /** The create/update/no-op branch of the job. Only the first listed
      record is looked at. */
  function Decide(listed: seq<Record>, settings: Settings, ip: string, now: Clock): (a: Action)
    ensures a.Create? <==> |listed| == 0
    ensures a.Create? ==>
              a == Create(settings.recordType.Text(), settings.hostname, ip,
                          Comment(now.dateTime), true, settings.proxied)
    ensures a.Update? <==> |listed| > 0 && listed[0].content != ip
    ensures a.Update? ==>
              a == Update(listed[0].id, settings.hostname, ip, Comment(now.stamp))
    ensures a.NoOp? <==> |listed| > 0 && listed[0].content == ip
  {
    if |listed| == 0 then
      Create(settings.recordType.Text(), settings.hostname, ip,
             Comment(now.dateTime), true, settings.proxied)
    else if listed[0].content != ip then
      Update(listed[0].id, settings.hostname, ip, Comment(now.stamp))
    else
      NoOp
  }

  /** Records after the first never influence the decision. */
  lemma OnlyFirstRecordConsulted(listed: seq<Record>, other: seq<Record>,
                                 settings: Settings, ip: string, now: Clock)
    requires |listed| > 0 && |other| > 0 && listed[0] == other[0]
    ensures Decide(listed, settings, ip, now) == Decide(other, settings, ip, now)
  {
  }

  /** The provider's list call filtered by name, in the provider's order. */
  function ListByName(records: seq<Record>, name: string): (listed: seq<Record>)
    ensures |listed| <= |records|
    ensures forall i :: 0 <= i < |listed| ==> listed[i].name == name
    ensures forall i :: 0 <= i < |records| && records[i].name == name ==> records[i] in listed
    ensures forall r :: r in listed ==> r in records
  {
    if |records| == 0 then []
    else if records[0].name == name then [records[0]] + ListByName(records[1..], name)
    else ListByName(records[1..], name)
  }

  /** The list keeps the zone's order: its first record is the zone's first
      record carrying the name. */
  lemma {:induction false} FirstListedIsFirstNamed(records: seq<Record>, name: string) returns (j: nat)
    requires |ListByName(records, name)| > 0
    ensures j < |records| && records[j] == ListByName(records, name)[0]
    ensures forall i :: 0 <= i < j ==> records[i].name != name
    decreases |records|
  {
    if records[0].name == name {
      j := 0;
    } else {
      var k := FirstListedIsFirstNamed(records[1..], name);
      j := k + 1;
    }
  }

  /** Listing a concatenation lists each part in turn. */
  lemma {:induction false} ListByNameAppend(a: seq<Record>, b: seq<Record>, name: string)
    ensures ListByName(a + b, name) == ListByName(a, name) + ListByName(b, name)
    decreases |a|
  {
    if |a| > 0 {
      var ab := a + b;
      assert ab[0] == a[0];
      assert ab[1..] == a[1..] + b;
      ListByNameAppend(a[1..], b, name);
      if a[0].name == name {
        calc {
          ListByName(ab, name);
          [a[0]] + ListByName(a[1..] + b, name);
          [a[0]] + (ListByName(a[1..], name) + ListByName(b, name));
          ([a[0]] + ListByName(a[1..], name)) + ListByName(b, name);
        }
      } else {
        assert ListByName(ab, name) == ListByName(a[1..] + b, name);
      }
    } else {
      assert a + b == b;
    }
  }

  /** The provider's update-by-id: every record with that id takes the new
      name, content and comment; its type and proxied flag are kept. */
  function UpdateById(records: seq<Record>, id: string, name: string, content: string,
                      comment: string): (updated: seq<Record>)
    ensures |updated| == |records|
    ensures forall i :: 0 <= i < |records| && records[i].id != id ==> updated[i] == records[i]
    ensures forall i :: 0 <= i < |records| && records[i].id == id ==>
              updated[i] == records[i].(name := name, content := content, comment := comment)
  {
    if |records| == 0 then []
    else
      var head := if records[0].id == id
                  then records[0].(name := name, content := content, comment := comment)
                  else records[0];
      [head] + UpdateById(records[1..], id, name, content, comment)
  }

  /** The zone's records after the provider performs the action; a created
      record gets the id `newId` the provider assigns. */
  function Apply(records: seq<Record>, a: Action, newId: string): (after: seq<Record>)
    ensures a.NoOp? ==> after == records
    ensures a.Create? ==>
              after == records + [Record(newId, a.recordType, a.name, a.content, a.comment, a.proxied)]
    ensures a.Update? ==> |after| == |records|
    ensures a.Update? ==>
              forall i :: 0 <= i < |records| && records[i].id != a.id ==> after[i] == records[i]
    ensures a.Update? ==>
              forall i :: 0 <= i < |records| && records[i].id == a.id ==>
                after[i] == records[i].(name := a.name, content := a.content, comment := a.comment)
  {
    match a
    case NoOp => records
    case Create(recordType, name, content, comment, _, proxied) =>
      records + [Record(newId, recordType, name, content, comment, proxied)]
    case Update(id, name, content, comment) => UpdateById(records, id, name, content, comment)
  }

  /** Updating by the id of the first record listed under `name` leaves a
      record with the new content first in the list. */
  lemma {:induction false} UpdateFirstListed(records: seq<Record>, name: string, id: string,
                                             content: string, comment: string)
    requires |ListByName(records, name)| > 0 && ListByName(records, name)[0].id == id
    ensures var listed := ListByName(UpdateById(records, id, name, content, comment), name);
            |listed| > 0 && listed[0].content == content
    decreases |records|
  {
    var updated := UpdateById(records, id, name, content, comment);
    assert updated[1..] == UpdateById(records[1..], id, name, content, comment);
    if records[0].id == id {
      assert updated[0].name == name;
    } else {
      assert records[0].name != name;
      assert updated[0] == records[0];
      UpdateFirstListed(records[1..], name, id, content, comment);
    }
  }

  /** One write is enough: whatever the cycle decides, once the provider has
      applied it, the next cycle with the same address decides `NoOp`. */
  lemma Converges(records: seq<Record>, settings: Settings, ip: string, now: Clock, later: Clock,
                  newId: string)
    ensures var a := Decide(ListByName(records, settings.hostname), settings, ip, now);
            Decide(ListByName(Apply(records, a, newId), settings.hostname), settings, ip, later) == NoOp
  {
    var h := settings.hostname;
    var a := Decide(ListByName(records, h), settings, ip, now);
    match a
    case NoOp =>
    case Create(recordType, name, content, comment, _, proxied) =>
      var created := Record(newId, recordType, name, content, comment, proxied);
      ListByNameAppend(records, [created], h);
      assert ListByName([created], h) == [created];
    case Update(id, name, content, comment) =>
      UpdateFirstListed(records, h, id, content, comment);
  }

  /** One tick of the job, from the zone's records to the zone's records
      after it; `writeOk` is whether the provider accepted the write. */
  function Cycle(records: seq<Record>, settings: Settings, ip: string, now: Clock, newId: string,
                 writeOk: bool): (result: (seq<Record>, Outcome))
    ensures result.1 == Valid ==> result.0 == records
    ensures result.1 in {CreateFailed, UpdateFailed} ==> result.0 == records && !writeOk
    ensures result.1 in {Created, Updated} ==> writeOk
    ensures result.1 == Created <==> writeOk && ListByName(records, settings.hostname) == []
    ensures result.1 == CreateFailed <==> !writeOk && ListByName(records, settings.hostname) == []
    ensures result.1.Fatal() <==>
              var listed := ListByName(records, settings.hostname);
              !writeOk && |listed| > 0 && listed[0].content != ip
    ensures result.1 in {Created, Updated} ==>
              result.0 == Apply(records, Decide(ListByName(records, settings.hostname), settings, ip, now), newId)
    ensures result.1 == Valid <==>
              var listed := ListByName(records, settings.hostname);
              |listed| > 0 && listed[0].content == ip
  {
    var a := Decide(ListByName(records, settings.hostname), settings, ip, now);
    match a
    case NoOp => (records, Valid)
    case Create(_, _, _, _, _, _) =>
      if writeOk then (Apply(records, a, newId), Created) else (records, CreateFailed)
    case Update(_, _, _, _) =>
      if writeOk then (Apply(records, a, newId), Updated) else (records, UpdateFailed)
  }

  /** After a tick that did not fail, the next tick with the same address
      finds the record valid and writes nothing: the zone is a fixed point. */
  lemma CycleReachesFixedPoint(records: seq<Record>, settings: Settings, ip: string,
                               now: Clock, later: Clock, newId: string, laterId: string,
                               writeOk: bool, laterOk: bool)
    requires Cycle(records, settings, ip, now, newId, writeOk).1 in {Created, Updated, Valid}
    ensures var first := Cycle(records, settings, ip, now, newId, writeOk);
            Cycle(first.0, settings, ip, later, laterId, laterOk) == (first.0, Valid)
  {
    Converges(records, settings, ip, now, later, newId);
  }

  /** The list is filtered by name only, so a record of another type under
      the hostname is taken for the record to keep: a lone record of another
      type with stale content is rewritten with the address, and from then on
      every tick reports the record valid although no record of the
      configured type exists. */
  lemma OtherTypeOverwritten(other: Record, settings: Settings, ip: string, now: Clock,
                             later: Clock, newId: string, laterId: string, laterOk: bool)
    requires other.name == settings.hostname
    requires other.recordType != settings.recordType.Text()
    requires other.content != ip
    ensures var first := Cycle([other], settings, ip, now, newId, true);
            && first == ([other.(content := ip, comment := Comment(now.stamp))], Updated)
            && Cycle(first.0, settings, ip, later, laterId, laterOk) == (first.0, Valid)
            && forall i :: 0 <= i < |first.0| ==> first.0[i].recordType != settings.recordType.Text()
  {
    var first := Cycle([other], settings, ip, now, newId, true);
    assert ListByName([other], settings.hostname) == [other];
    assert first.0 == [other.(content := ip, comment := Comment(now.stamp))];
    assert ListByName(first.0, settings.hostname) == first.0;
  }

  /** Likewise an update may target a record of the other address family:
      with an `A` record listed first and `AAAA` configured, the update is
      aimed at the `A` record, whatever other records follow it. */
  lemma UpdateTargetsFirstOfAnyType(first: Record, rest: seq<Record>, settings: Settings,
                                    ip: string, now: Clock)
    requires first.name == settings.hostname
    requires first.content != ip
    ensures Decide(ListByName([first] + rest, settings.hostname), settings, ip, now)
              == Update(first.id, settings.hostname, ip, Comment(now.stamp))
  {
    assert ([first] + rest)[1..] == rest;
  }

  /** With no matching record, a successful tick creates exactly one record:
      the configured type, the hostname, the address and proxied flag. */
  lemma CreatePath(records: seq<Record>, settings: Settings, ip: string, now: Clock, newId: string)
    requires ListByName(records, settings.hostname) == []
    ensures Cycle(records, settings, ip, now, newId, true) ==
              (records + [Record(newId, settings.recordType.Text(), settings.hostname, ip,
                              Comment(now.dateTime), settings.proxied)], Created)
  {
  }

  /** With a stale first record, a successful tick rewrites the records with
      its id and adds none. */
  lemma UpdatePath(records: seq<Record>, settings: Settings, ip: string, now: Clock, newId: string)
    requires |ListByName(records, settings.hostname)| > 0
    requires ListByName(records, settings.hostname)[0].content != ip
    ensures var result := Cycle(records, settings, ip, now, newId, true);
            && result.1 == Updated
            && |result.0| == |records|
            && forall i :: 0 <= i < |records| ==>
                 result.0[i] == (if records[i].id == ListByName(records, settings.hostname)[0].id
                                 then records[i].(name := settings.hostname, content := ip,
                                               comment := Comment(now.stamp))
                                 else records[i])
  {
  }
}

=== FILE: strconv.dfy ===
/** The two parsers of Go's `strconv` package the configuration goes
    through: `Atoi` (decimal, optional sign, 64-bit range) and `ParseBool`. */
module Strconv {
  import opened Wrappers

  const MinInt64: int := -0x8000_0000_0000_0000
  const MaxInt64: int := 0x7FFF_FFFF_FFFF_FFFF

  predicate IsDigit(ch: char) {
    '0' <= ch <= '9'
  }

  predicate AllDigits(s: string) {
    forall i :: 0 <= i < |s| ==> IsDigit(s[i])
  }

  /** The value of a string of decimal digits, most significant first. */
  function DigitsValue(s: string): (n: nat)
    requires AllDigits(s)
    decreases |s|
  {
    if |s| == 0 then 0
    else DigitsValue(s[..|s| - 1]) * 10 + (s[|s| - 1] as int - '0' as int)
  }

  /** The shortest decimal spelling of `n` (Go's `strconv.Itoa` on a
      non-negative value). */
  function Decimal(n: nat): (s: string)
    ensures |s| >= 1 && AllDigits(s)
  {
    if n < 10 then [('0' as int + n) as char]
    else Decimal(n / 10) + [('0' as int + n % 10) as char]
  }

  /** `strconv.Atoi(s)`: an optional `+` or `-`, then one or more ASCII
      digits, whose value must fit in a 64-bit `int`; anything else is an
      error (`None`). */
  function Atoi(s: string): (r: Option<int>)
    ensures r.Some? ==> MinInt64 <= r.value <= MaxInt64
    ensures r.Some? <==>
              || (|s| >= 1 && AllDigits(s) && DigitsValue(s) <= MaxInt64)
              || (|s| >= 2 && s[0] == '+' && AllDigits(s[1..]) && DigitsValue(s[1..]) <= MaxInt64)
              || (|s| >= 2 && s[0] == '-' && AllDigits(s[1..]) && DigitsValue(s[1..]) <= -MinInt64)
    ensures r.Some? && IsDigit(s[0]) ==> r.value == DigitsValue(s)
    ensures r.Some? && s[0] == '+' ==> r.value == DigitsValue(s[1..])
    ensures r.Some? && s[0] == '-' ==> r.value == 0 - DigitsValue(s[1..])
  {
    if |s| == 0 then None
    else
      var negative := s[0] == '-';
      var digits := if s[0] == '+' || s[0] == '-' then s[1..] else s;
      if |digits| == 0 || !AllDigits(digits) then None
      else
        var magnitude: int := DigitsValue(digits);
        var n := if negative then 0 - magnitude else magnitude;
        if n < MinInt64 || n > MaxInt64 then None else Some(n)
  }

  /** Reading back a decimal spelling gives the number. */
  lemma {:induction false} DigitsValueDecimal(n: nat)
    ensures DigitsValue(Decimal(n)) == n
  {
    if n >= 10 {
      DigitsValueDecimal(n / 10);
      var s := Decimal(n);
      assert s[..|s| - 1] == Decimal(n / 10);
    }
  }

  /** `Atoi` inverts `Itoa` on every non-negative 64-bit value. */
  lemma AtoiDecimal(n: nat)
    requires n <= MaxInt64
    ensures Atoi(Decimal(n)) == Some(n)
  {
    DigitsValueDecimal(n);
  }

  /** `Atoi` reads a minus sign and a decimal spelling as the negative
      number, down to the smallest 64-bit value. */
  lemma AtoiNegativeDecimal(n: nat)
    requires n <= -MinInt64
    ensures Atoi("-" + Decimal(n)) == Some(0 - n)
  {
    DigitsValueDecimal(n);
    assert ("-" + Decimal(n))[1..] == Decimal(n);
  }

  /** `strconv.ParseBool(s)`: the six spellings of true and the six of
      false; anything else is an error (`None`). */
  function ParseBool(s: string): (r: Option<bool>)
    ensures r == Some(true) <==> s in {"1", "t", "T", "TRUE", "true", "True"}
    ensures r == Some(false) <==> s in {"0", "f", "F", "FALSE", "false", "False"}
  {
    match s
    case "1" => Some(true)
    case "t" => Some(true)
    case "T" => Some(true)
    case "TRUE" => Some(true)
    case "true" => Some(true)
    case "True" => Some(true)
    case "0" => Some(false)
    case "f" => Some(false)
    case "F" => Some(false)
    case "FALSE" => Some(false)
    case "false" => Some(false)
    case "False" => Some(false)
    case _ => None
  }

  /** `strconv.FormatBool(b)`. */
  function FormatBool(b: bool): string
  {
    if b then "true" else "false"
  }

  /** `ParseBool` inverts `FormatBool`. */
  lemma ParseFormatBool(b: bool)
    ensures ParseBool(FormatBool(b)) == Some(b)
  {
  }
}

=== FILE: strings.dfy ===
/** The parts of Go's `strings` package the updater relies on, for a
    one-character separator or cutset: `Split`, `Join` and `TrimRight`. */
module Strings {

  /** Number of occurrences of `c` in `s` (Go's `strings.Count` for a
      one-character substring). */
  function Count(s: string, c: char): nat
  {
    if |s| == 0 then 0
    else (if s[0] == c then 1 else 0) + Count(s[1..], c)
  }

  /** Occurrences in a concatenation add up. */
  lemma {:induction false} CountAppend(a: string, b: string, c: char)
    ensures Count(a + b, c) == Count(a, c) + Count(b, c)
    decreases |a|
  {
    if |a| > 0 {
      CountAppend(a[1..], b, c);
      assert (a + b)[1..] == a[1..] + b;
    } else {
      assert a + b == b;
    }
  }

  /** `strings.Split(s, [c])`: the pieces of `s` between occurrences of `c`.
      An empty `s` gives one empty piece, as in Go. */
  function Split(s: string, c: char): (pieces: seq<string>)
    ensures |pieces| >= 1
    ensures forall i :: 0 <= i < |pieces| ==> c !in pieces[i]
    decreases |s|
  {
    if |s| == 0 then [""]
    else
      var rest := Split(s[1..], c);
      if s[0] == c then [""] + rest
      else [[s[0]] + rest[0]] + rest[1..]
  }

  /** `strings.Join(parts, [c])`: the parts with `c` between neighbours. */
  function Join(parts: seq<string>, c: char): string
  {
    if |parts| == 0 then ""
    else if |parts| == 1 then parts[0]
    else parts[0] + [c] + Join(parts[1..], c)
  }

  /** There is one more piece than there are separators. */
  lemma {:induction false} SplitLength(s: string, c: char)
    ensures |Split(s, c)| == Count(s, c) + 1
    decreases |s|
  {
    if |s| > 0 {
      SplitLength(s[1..], c);
    }
  }

  /** Joining the pieces of a split gives back the input. */
  lemma {:induction false} JoinSplit(s: string, c: char)
    ensures Join(Split(s, c), c) == s
    decreases |s|
  {
    if |s| > 0 {
      var rest := Split(s[1..], c);
      JoinSplit(s[1..], c);
      if s[0] == c {
        assert Split(s, c) == [""] + rest;
        assert Join([""] + rest, c) == "" + [c] + Join(rest, c);
        assert s == [c] + s[1..];
      } else {
        var pieces := Split(s, c);
        assert pieces == [[s[0]] + rest[0]] + rest[1..];
        if |rest| == 1 {
          assert Join(pieces, c) == [s[0]] + rest[0];
        } else {
          assert pieces[1..] == rest[1..];
          assert Join(rest, c) == rest[0] + [c] + Join(rest[1..], c);
          assert Join(pieces, c) == ([s[0]] + rest[0]) + [c] + Join(rest[1..], c);
        }
        assert s == [s[0]] + s[1..];
      }
    }
  }

  /** A string free of the separator splits into itself alone. */
  lemma {:induction false} SplitNoSeparator(p: string, c: char)
    requires c !in p
    ensures Split(p, c) == [p]
    decreases |p|
  {
    if |p| > 0 {
      SplitNoSeparator(p[1..], c);
      assert [p[0]] + p[1..] == p;
    }
  }

  /** A separator-free prefix followed by the separator becomes the first piece. */
  lemma {:induction false} SplitAfterPiece(p: string, t: string, c: char)
    requires c !in p
    ensures Split(p + [c] + t, c) == [p] + Split(t, c)
    decreases |p|
  {
    if |p| == 0 {
      assert p + [c] + t == [c] + t;
      assert ([c] + t)[1..] == t;
    } else {
      SplitAfterPiece(p[1..], t, c);
      var s := p + [c] + t;
      assert s[0] == p[0];
      assert s[1..] == p[1..] + [c] + t;
      assert [p[0]] + p[1..] == p;
    }
  }

  /** Splitting a join of separator-free parts gives back the parts. */
  lemma {:induction false} SplitJoin(parts: seq<string>, c: char)
    requires |parts| >= 1
    requires forall i :: 0 <= i < |parts| ==> c !in parts[i]
    ensures Split(Join(parts, c), c) == parts
    decreases |parts|
  {
    if |parts| == 1 {
      SplitNoSeparator(parts[0], c);
    } else {
      SplitJoin(parts[1..], c);
      SplitAfterPiece(parts[0], Join(parts[1..], c), c);
      assert [parts[0]] + parts[1..] == parts;
    }
  }

  /** `strings.TrimRight(s, cutset)`: `s` without its longest suffix made
      only of characters in `cutset`. */
  function TrimRight(s: string, cutset: string): (r: string)
    ensures r <= s
    ensures |r| > 0 ==> r[|r| - 1] !in cutset
    ensures forall i :: |r| <= i < |s| ==> s[i] in cutset
    decreases |s|
  {
    if |s| > 0 && s[|s| - 1] in cutset then TrimRight(s[..|s| - 1], cutset)
    else s
  }

  /** Trimming is determined by its contract: any split of `s` into a kept
      part not ending in the cutset and a removed part made only of cutset
      characters is the one `TrimRight` makes. */
  lemma {:induction false} TrimRightUnique(p: string, q: string, cutset: string)
    requires |p| > 0 ==> p[|p| - 1] !in cutset
    requires forall i :: 0 <= i < |q| ==> q[i] in cutset
    ensures TrimRight(p + q, cutset) == p
    decreases |q|
  {
    if |q| == 0 {
      assert p + q == p;
    } else {
      var s := p + q;
      assert s[|s| - 1] == q[|q| - 1];
      assert s[..|s| - 1] == p + q[..|q| - 1];
      TrimRightUnique(p, q[..|q| - 1], cutset);
    }
  }

  /** Trimming twice removes nothing more than trimming once. */
  lemma TrimRightIdempotent(s: string, cutset: string)
    ensures TrimRight(TrimRight(s, cutset), cutset) == TrimRight(s, cutset)
  {
    var r := TrimRight(s, cutset);
    TrimRightUnique(r, [], cutset);
    assert r + [] == r;
  }

  /** Go's implementation: scan backwards from the end while the character
      is in the cutset, then slice. */
  method TrimRightScan(s: string, cutset: string) returns (r: string)
    ensures r == TrimRight(s, cutset)
  {
    var n := |s|;
    while n > 0 && s[n - 1] in cutset
      invariant 0 <= n <= |s|
      invariant forall i :: n <= i < |s| ==> s[i] in cutset
    {
      n := n - 1;
    }
    r := s[..n];
    TrimRightUnique(r, s[n..], cutset);
    assert r + s[n..] == s;
  }
}

=== FILE: wrappers.dfy ===
/** Failure-compatible wrappers used in place of Go's `(value, error)` pairs
    and of `log.Fatal` process exits. */
module Wrappers {

  /** A value that may be absent. */
  datatype Option<+T> = None | Some(value: T)

  /** Either a computed value or the error that stopped the computation. */
  datatype Result<+R, +E> = Success(value: R) | Failure(error: E) {

    predicate IsFailure() {
      Failure?
    }

    function PropagateFailure<U>(): Result<U, E>
      requires Failure?
    {
      Failure(error)
    }

    function Extract(): R
      requires Success?
    {
      value
    }
  }
}

=== FILE: zone.dfy ===
/** `parseZoneName`: derive the provider zone from the record's fully
    qualified hostname, which must have exactly three dot-separated labels. */
module Zone {
  import opened Wrappers
  import opened Strings

  /** The error `parseZoneName` returns; it names the offending input. */
  datatype ZoneError = MalformedHostname(entered: string)

  /** Split the hostname on `.`; three pieces give the zone `piece1.piece2`,
      any other count is an error. Empty labels are not rejected. */
  function ParseZoneName(hostname: string): (r: Result<string, ZoneError>)
    ensures r.Failure? ==> r.error == MalformedHostname(hostname)
    ensures r.Success? ==> '.' in r.value
  {
    var pieces := Split(hostname, '.');
    if |pieces| != 3 then Failure(MalformedHostname(hostname))
    else Success(Join([pieces[1], pieces[2]], '.'))
  }

  /** The zone string the Go caller receives: the error path yields
      the empty string, as the Go function does. */
  function ZoneOrEmpty(hostname: string): string
  {
    match ParseZoneName(hostname)
    case Success(zone) => zone
    case Failure(_) => ""
  }

  lemma JoinTwo(a: string, b: string, c: char)
    ensures Join([a, b], c) == a + [c] + b
  {
    assert [a, b][1..] == [b];
  }

  lemma JoinThree(parts: seq<string>, c: char)
    requires |parts| == 3
    ensures Join(parts, c) == parts[0] + [c] + parts[1] + [c] + parts[2]
  {
    assert parts[1..] == [parts[1], parts[2]];
    JoinTwo(parts[1], parts[2], c);
  }

  /** Accepted exactly when the hostname holds exactly two dots. */
  lemma AcceptedIffTwoDots(hostname: string)
    ensures ParseZoneName(hostname).Success? <==> Count(hostname, '.') == 2
    ensures ParseZoneName(hostname).Failure? ==> ZoneOrEmpty(hostname) == ""
  {
    SplitLength(hostname, '.');
  }

  /** On success the zone is the last two labels, and the first label, a dot
      and the zone spell the hostname again. */
  lemma AcceptedReconstructs(hostname: string)
    requires ParseZoneName(hostname).Success?
    ensures var pieces := Split(hostname, '.');
            |pieces| == 3
            && ParseZoneName(hostname).value == pieces[1] + "." + pieces[2]
            && pieces[0] + "." + ParseZoneName(hostname).value == hostname
  {
    var pieces := Split(hostname, '.');
    JoinSplit(hostname, '.');
    JoinTwo(pieces[1], pieces[2], '.');
    JoinThree(pieces, '.');
  }

  /** Any three dot-free labels, empty ones included, are accepted, and the
      zone is the last two. */
  lemma ThreeLabelsAccepted(host: string, domain: string, tld: string)
    requires '.' !in host && '.' !in domain && '.' !in tld
    ensures ParseZoneName(host + "." + domain + "." + tld) == Success(domain + "." + tld)
  {
    var parts := [host, domain, tld];
    JoinThree(parts, '.');
    SplitJoin(parts, '.');
    JoinTwo(domain, tld, '.');
  }

  /** The examples of a valid and of invalid hostnames. */
  lemma AcceptsRecordDomainTld()
    ensures ParseZoneName("host.example.com") == Success("example.com")
  {
    var hostname := "host" + "." + "example" + "." + "com";
    ThreeLabelsAccepted("host", "example", "com");
    assert ParseZoneName(hostname) == Success("example" + "." + "com");
    assert hostname == "host.example.com";
    assert "example" + "." + "com" == "example.com";
  }

  lemma AcceptsEmptyLabel()
    ensures ParseZoneName("a..com") == Success(".com")
  {
    var hostname := "a" + "." + "" + "." + "com";
    ThreeLabelsAccepted("a", "", "com");
    assert ParseZoneName(hostname) == Success("" + "." + "com");
    assert hostname == "a..com";
    assert "" + "." + "com" == ".com";
  }

  lemma RejectsEmpty()
    ensures ParseZoneName("").Failure?
  {
    AcceptedIffTwoDots("");
  }

  lemma RejectsBareDomain()
    ensures ParseZoneName("example.com").Failure?
  {
    CountAppend("example", ".com", '.');
    assert Count("example.com", '.') == 1;
    AcceptedIffTwoDots("example.com");
  }

  lemma FourLabelsHaveThreeDots()
    ensures Count("a.b.example.com", '.') == 3
  {
    CountAppend("a.b.", "example.com", '.');
    CountAppend("example", ".com", '.');
    CountAppend("a.", "b.", '.');
  }

  lemma RejectsFourLabels()
    ensures ParseZoneName("a.b.example.com").Failure?
  {
    FourLabelsHaveThreeDots();
    AcceptedIffTwoDots("a.b.example.com");
  }
}
